=== FILE: README.md ===
# limitation: fixed-window rate limiter and rate-limiting reverse proxy, in Dafny

This project models the request path of the `limitation` rate-limiting proxy:

- **Counter and decision** (`limitation`). A Redis-backed fixed-window counter.
  Each `count` runs `SET key 0 EX period NX; INCR key; TTL key` as one atomic
  transaction. It turns the count into a `Status` (limit, remaining, reset
  time) and admits the request when the count is at most the limit (the
  limit is inclusive). Otherwise it returns `LimitExceeded` carrying the
  status.
- **Enforcement middleware** (`limitation-actix-middleware`). The key is the
  first value of a configured request header, taken verbatim. With no key,
  the answer is a bare 403 and nothing is counted. Otherwise the outcome
  depends on the limiter:
  - admitted: the request goes to the inner service, and its response
    gains `x-ratelimit-limit`, `x-ratelimit-remaining` and
    `x-ratelimit-reset`;
  - denied: a 403 carrying those three headers;
  - any other limiter error: the middleware fails open and forwards the
    request untouched.
- **Reverse proxy** (`limitation-proxy`). It retargets the request at the
  backend URL, keeping the request's path and query. It strips the eight
  hop-by-hop headers of section 13.5.1 of RFC 2616 in both directions and
  appends the caller's IP to `x-forwarded-for`. It relays the backend's
  status and headers.

Everything is pure functions over immutable values:

- Redis is a `map<string, Record>` observed at an explicit clock `now`, in
  whole seconds.
- Header maps are ordered `(name, value)` lists whose names compare
  case-insensitively.
- The inner service, the HTTP client and the backend are function
  parameters.

| file | module | models |
|---|---|---|
| `wrappers.dfy` | `Wrappers` | `Option`, `Result` |
| `headers.dfy` | `Headers` | header map `get` / `get_all` / `remove` / `insert` / `append`, case-insensitive names, decimal header values |
| `http.dfy` | `Http` | request, URI and response shapes |
| `limitation.dfy` | `Limitation` | `limitation/src/lib.rs` |
| `window.dfy` | `Window` | sequences of `count` calls on one key |
| `rate_limiter.dfy` | `RateLimiter` | `limitation-actix-middleware/src/rate_limiter.rs` |
| `handlers.dfy` | `Handlers` | `limitation-proxy/src/app/handlers.rs` |
| `pipeline.dfy` | `Pipeline` | the middleware wrapped around the proxy handler, as `limitation-proxy/src/app.rs` wires them |
| `cli.dfy` | `Cli` | `parse_period` of `limitation-proxy/src/cli.rs` (see Findings) |

Modelling choices:

- A record is live while `now < expiry`. From its expiry on, Redis treats the
  key as absent, so `SET ... NX` creates it afresh. `TTL` is `expiry - now`.
- One clock `now` stands for both the Redis server's clock and
  `chrono::Utc::now()`. So the reset time a status reports is exactly the
  record's expiry. `EpochUtcPlus` itself takes any integer clock, so its
  fallback to 0 for timestamps outside `usize` is visible.
- `usize` is 64 bits wide.
- Redis refuses `SET ... EX 0` and any `EX` that is not a signed 64-bit
  integer. So a period shorter than one second (`as_secs() == 0`) or longer
  than `i64::MAX` seconds makes every count fail with a client error.

## Model

| member | source | states |
|---|---|---|
| Headers.Get | limitation-actix-middleware/src/rate_limiter.rs:142-143 | the header lookup returns nothing exactly when the name has no value, and otherwise returns the first value recorded under it |
| Headers.Remove | limitation-proxy/src/app/handlers.rs:68-70 | removing a name leaves no entry of that name (case-insensitively) and every other name keeps all its values in order |
| Headers.Insert | limitation-actix-middleware/src/rate_limiter.rs:150-159 | after insert the name holds exactly the one new value; every other name is unchanged |
| Headers.Append | limitation-proxy/src/app/handlers.rs:76-79 | append adds the value after the name's existing values; every other name is unchanged |
| Headers.FilterOut | limitation-proxy/src/app/handlers.rs:68-70 | the filtered map holds exactly the entries of the original whose names are not listed |
| Headers.FilterOutValues | limitation-proxy/src/app/handlers.rs:68-70 | filtering deletes every value of a listed name and keeps every value of any other name, in order |
| Headers.FilterOutIdempotent | limitation-proxy/src/app/handlers.rs:65-71 | filtering twice by the same names equals filtering once |
| Headers.Decimal | limitation-actix-middleware/src/rate_limiter.rs:151-158 | an integer header value is a non-empty string of decimal digits without a leading zero |
| Headers.DecimalRoundTrip | limitation-actix-middleware/src/rate_limiter.rs:151-158 | reading back a decimal header value yields the integer that was written |
| Limitation.Build | limitation/src/lib.rs:168-174 | a new builder holds the given Redis URL, limit 5000 and a period of 3600 whole seconds |
| Limitation.WithLimit | limitation/src/lib.rs:287-290 | the limit setter sets the limit and leaves URL and period alone |
| Limitation.WithPeriod | limitation/src/lib.rs:293-296 | the period setter sets the period and leaves URL and limit alone |
| Limitation.Finish | limitation/src/lib.rs:306-312 | finishing succeeds exactly when the Redis client accepts the URL, and the limiter then has the builder's limit and period; otherwise it is a client error |
| Limitation.Transact | limitation/src/lib.rs:218-230 | the transaction touches only `key`. A live record gains one on its count and keeps its expiry. An absent or expired record is re-created with count 1 and expiry now + period. The reply is the new count and the TTL to the record's expiry |
| Limitation.EpochUtcPlus | limitation/src/lib.rs:370-377 | the reset time is clock + TTL. It is a time error exactly when the TTL exceeds chrono's range, and 0 when the sum falls outside `usize` |
| Limitation.Track | limitation/src/lib.rs:207-238 | an unreachable Redis, or a period whose whole seconds Redis refuses as `EX` (zero, or above the largest signed 64-bit integer), gives a client error with the store untouched. Otherwise only `key` changes and a live record keeps its expiry. The call then fails exactly when the TTL exceeds what a chrono duration holds, and then with `Time`. Otherwise the result pairs the record's new count with its expiry as the reset time |
| Limitation.BuildStatus | limitation/src/lib.rs:359-367 | remaining never exceeds the limit, and remaining + min(count, limit) == limit. Limit and reset time are copied through |
| Limitation.Decide | limitation/src/lib.rs:195-203 | a count is admitted exactly when it is at most the limit, with remaining = limit - count. Otherwise it is `LimitExceeded` with remaining 0 |
| Limitation.Count | limitation/src/lib.rs:192-204 | states what a count does to the store (only `key` changes; a live record keeps its expiry; an expired one restarts at 1). An admitted status has count <= limit and remaining = limit - count. A denied one has count > limit and remaining 0. Both report the record's expiry as reset time. With Redis reachable and a period Redis accepts as `EX`, the result is `Time` exactly when the TTL exceeds chrono's range. Otherwise it is the inclusive-limit decision on the record's new count and expiry |
| Window.LiveStep | limitation/src/lib.rs:219-230 | one call on a live record adds one to its count, keeps its expiry and is decided against that count |
| Window.FreshStep | limitation/src/lib.rs:219-230 | one call without a live record stores count 1 expiring one period later and is decided against count 1 |
| Window.WindowStore | limitation/src/lib.rs:219-230 | calls made while a record is live add one count each, never move its expiry and change no other key |
| Window.CountsWithinWindow | limitation/src/lib.rs:219-230 | calls made while a record is live see successive counts and the record's expiry as reset time |
| Window.FreshWindowStore | limitation/src/lib.rs:219-230 | a window opened by the first call ends one period after it and holds one count per call |
| Window.FreshWindowCounts | limitation/src/lib.rs:195-203 | the i-th call of a fresh window is decided against count i + 1 and the window's end |
| Window.FreshWindow | limitation/src/lib.rs:195-203 | from an absent key with limit L, calls 1..L within one period are admitted with remaining L-1 down to 0; every later call in the window is denied with remaining 0 |
| Window.WindowResets | limitation/src/lib.rs:219-228 | the first call after a record expired starts a new window: count 1, expiry a full period later, remaining limit - 1 |
| Window.WindowRollsOver | limitation/src/lib.rs:219-228 | after a whole window of calls, a call at or after its end is admitted again with remaining limit - 1 |
| Window.FiveInTenSeconds | limitation-actix-middleware/examples/catchall.rs:41-46 | with limit 5 and period 10 s, six calls on one key see remaining 4, 3, 2, 1, 0 and then a denial |
| RateLimiter.RateLimitNamesDistinct | limitation-actix-middleware/src/rate_limiter.rs:18-23 | the three rate-limit header names are pairwise different headers |
| RateLimiter.ClientReadsStatus | limitation-actix-middleware/src/rate_limiter.rs:149-160 | a client reading the three headers recovers the limit, remaining count and reset time of the status |
| RateLimiter.Key | limitation-actix-middleware/src/rate_limiter.rs:133-146 | there is a key exactly when the configured header has a value made only of tab and visible ASCII characters; the key is that first value, character for character |
| RateLimiter.AddRateLimitHeaders | limitation-actix-middleware/src/rate_limiter.rs:149-160 | each of the three headers ends up with exactly one value, the decimal rendering of the matching status field; every other header is unchanged |
| RateLimiter.Call | limitation-actix-middleware/src/rate_limiter.rs:93-127 | no key gives a bare 403, with no count and no inner call. Admitted: inner is called once, its status is kept and the three headers are added. Denied: a 403 carrying the three headers and nothing else, with no inner call. Any other limiter error: inner's reply is returned unchanged |
| Handlers.ForwardedForIsNotHopByHop | limitation-proxy/src/app/handlers.rs:19-28 | `x-forwarded-for` is not one of the hop-by-hop headers |
| Handlers.RemoveEachFilters | limitation-proxy/src/app/handlers.rs:68-70 | removing the listed names one at a time equals filtering them all out at once |
| Handlers.RemoveAll | limitation-proxy/src/app/handlers.rs:65-71 | after the removal loop no listed name is present, and every other name keeps all its values in order |
| Handlers.RemoveAllIdempotent | limitation-proxy/src/app/handlers.rs:65-71 | running the removal loop twice over the same names equals running it once |
| Handlers.RemoveAllKeepsCleanMap | limitation-proxy/src/app/handlers.rs:65-71 | a map holding none of the names comes out of the removal loop unchanged, order included |
| Handlers.RemoveAllAppendCommute | limitation-proxy/src/app/handlers.rs:65-81 | appending an unlisted header before or after the removal loop gives the same map |
| Handlers.DropHopHeaders | limitation-proxy/src/app/handlers.rs:19-28 | none of the eight hop-by-hop names survives, compared case-insensitively; every other header keeps all its values in order |
| Handlers.DropHopHeadersIdempotent | limitation-proxy/src/app/handlers.rs:84-90 | dropping hop-by-hop headers twice equals dropping them once |
| Handlers.DropHopHeadersKeepsCleanMap | limitation-proxy/src/app/handlers.rs:87-89 | a header map without hop-by-hop headers passes through unchanged |
| Handlers.DropThenAppendCommute | limitation-proxy/src/app/handlers.rs:48-49 | dropping hop-by-hop headers and then appending an end-to-end header equals the opposite order, so the appended `x-forwarded-for` always survives |
| Handlers.ProxyUrl | limitation-proxy/src/app/handlers.rs:93-98 | the target keeps the backend URL's scheme, user info, host, port and fragment, and takes path and query from the request; no request query means no query |
| Handlers.ProxyUrlIgnoresTargetPath | limitation-proxy/src/app/handlers.rs:94-96 | the backend URL's own path and query never reach the target |
| Handlers.DropHopHeadersOnRequest | limitation-proxy/src/app/handlers.rs:65-71 | the outbound request keeps method and URL, has no hop-by-hop header, and every other header keeps its values |
| Handlers.DropHopHeadersOnResponse | limitation-proxy/src/app/handlers.rs:84-90 | the response keeps its status, has no hop-by-hop header, and every other header keeps its values |
| Handlers.AddHeadersOnRequest | limitation-proxy/src/app/handlers.rs:74-81 | with a known peer, its IP is appended after the existing `x-forwarded-for` values; with none the request is unchanged; other headers never change |
| Handlers.ForwardedHeaders | limitation-proxy/src/app/handlers.rs:65-81 | removing a set of names and then appending an unlisted one leaves no listed name, extends the appended name's values by exactly the new one, and keeps every other name's values |
| Handlers.ProxiedRequest | limitation-proxy/src/app/handlers.rs:44-52 | the outbound request has the inbound method and the retargeted URL. It has no hop-by-hop header. `x-forwarded-for` holds the first inbound value, if any, followed by the peer IP if known. Every other end-to-end header keeps its first inbound value, because the client's copy keeps one value per name |
| Handlers.RequestFrom | limitation-proxy/src/app/handlers.rs:45-47 | the client request has the inbound method and the given URL, and each header name carries exactly its first inbound value |
| Handlers.RelayResponse | limitation-proxy/src/app/handlers.rs:55-62 | the relayed response has the backend's status and the backend's headers minus the hop-by-hop ones |
| Handlers.Forward | limitation-proxy/src/app/handlers.rs:31-41 | the reply is `Ok` exactly when the send succeeds. A send failure is passed back unchanged; a successful send yields the backend's status with its end-to-end headers and no hop-by-hop header |
| Pipeline.RateLimitNamesAreEndToEnd | limitation-actix-middleware/src/rate_limiter.rs:18-23 | none of the three rate-limit header names is hop-by-hop |
| Pipeline.Serve | limitation-proxy/src/app.rs:49-57 | the middleware's inner service is the forwarding handler. The counter store after a request depends only on its key (untouched without one), the handler runs at most once, and an error reply is the handler's own, passed through |
| Pipeline.NoHopByHopHeaderReachesClient | limitation-proxy/src/app.rs:49-57 | whatever the limiter decides, no header map the service hands to the server in an `Ok` reply carries a hop-by-hop header |
| Pipeline.KeylessRequestLeavesNoTrace | limitation-actix-middleware/src/rate_limiter.rs:100-107 | a request without the key header gets a bare 403, leaves the counter store untouched and never reaches the backend |
| Pipeline.FailsOpenWithoutRedis | limitation-actix-middleware/src/rate_limiter.rs:122-125 | with Redis unreachable a keyed request is forwarded once and the backend's reply is returned without rate-limit headers |
| Pipeline.DeniedOnceLimitReached | limitation-actix-middleware/src/rate_limiter.rs:114-121 | once a live window holds `limit` requests, the next one gets a 403 without reaching the backend. Its headers read the limit, remaining 0 and the window's end |
| Cli.ParsePeriodAsWritten | limitation-proxy/src/cli.rs:120-122 | the period text is read as a base-16 number of whole seconds |
| Cli.DefaultPeriodMisread | limitation-proxy/src/cli.rs:20 | the default period text "3600" is read as 13824 seconds |
| Cli.ParsePeriod | limitation-proxy/src/cli.rs:115-119 | the corrected parser reads the text as a decimal number of whole seconds |
| Cli.ParsePeriodReadsSeconds | limitation-proxy/src/cli.rs:115-119 | the corrected parser reads the decimal text of any `u64` back as that many seconds |

## Left out

- Redis I/O is replaced by the atomic step `Transact`: connecting, `query_async`, `Client::open` and the futures combinators. Whether Redis answers at all is the parameter `reachable`. An unreachable Redis changes nothing.
- Concurrent callers are left out. Redis serialises the transactions, so any interleaving of calls on one key is one of the sequences `Window.CountAll` runs.
- Limitation.Track: with a period Redis refuses as `EX` (zero seconds, or more than the largest signed 64-bit integer), the `SET` fails, but the `INCR` in the same transaction still runs and leaves a count with no expiry. The model keeps the store unchanged in that case and reports only the client error. Recent Redis versions also refuse an expire time whose value in milliseconds overflows, that is, a period above 9_223_372_036_854_775 seconds. The model accepts those periods and answers `Time` once the TTL exceeds chrono's range, where such a Redis would give a client error.
- Limitation.Transact: the count is unbounded. Redis's error when `INCR` passes 2^63 - 1 is not modelled. `TTL` is exact whole seconds, whereas Redis rounds the remaining milliseconds.
- Limitation.EpochUtcPlus: `chrono` panics when now + TTL passes its largest date (around year 262000). That panic is not modelled. `round_subsecs` has no effect on a whole-second clock.
- The clock: `chrono::Utc::now()` and the Redis server's clock are the one parameter `now`.
- The sub-second part of a `Duration` is carried but ignored, as `as_secs` ignores it.
- The HTTP client's source is not part of this model. `Handlers.RequestFrom` follows the implementation of `request_from`, which copies the inbound method and then each header with `set_header_if_none`, so a repeated inbound header keeps only its first value. Headers the client adds on sending (host, user agent) are not modelled, and neither are `no_decompress`, `send_stream` or body streaming.
- Pipeline.NoHopByHopHeaderReachesClient: it covers only the header maps of `Ok` replies. When the backend cannot be reached, the framework turns the handler's error into an error response, and on the admitted path the middleware adds the rate-limit headers to it. The model returns that error as `Err` and leaves this mapping out. The server's encoder also writes its own `connection` and `transfer-encoding` headers when it writes the response out. That framing happens below the service and is not modelled.
- Headers.Insert: the library's header map does not order entries across names, so `Insert` and `Append` put the new entry last. Every contract is stated per name.
- Handlers.ProxyUrl: the `url` crate's processing of the new path and query is not modelled. That covers percent-encoding, resolving `.` and `..` segments (so `/public/../admin` reaches the backend as `/admin`), turning `\` into `/` for http URLs, and cannot-be-a-base URLs. Path and query are copied verbatim.
- Middleware plumbing: the `app_data` lookups of the limiter and header name (which panic when missing) become parameters. The shared `Rc<RefCell<_>>` service handle and `poll_ready` are left out. The inner service is the parameter `inner`, and `innerCalls` records whether it was called.
- `Display`, `Error` and `From` impls, `Clone`/`Debug` derives and the `Status` accessors carry no logic.
- Not modelled: the rest of `limitation-proxy/src/cli.rs` (argument parsing, logger setup), `limitation-proxy/src/app/config.rs` (library parsers; `app.rs` does not declare it), the server setup in `limitation-proxy/src/app.rs`, both `main.rs` files, the example handler, the re-exporting `lib.rs` files and the version-number test.

## Findings

| source | as written | input that shows it | evidently intended | confidence | as-written member | corrected member |
|---|---|---|---|---|---|---|
| limitation-proxy/src/cli.rs:120-122 | `parse_period` calls `u64::from_str_radix(src, 16)`, so the period text is read in hexadecimal | the default period text `"3600"` (cli.rs:20) becomes 0x3600 = 13824 seconds, about 3.8 hours instead of one | the option is documented as a number of seconds (cli.rs:82, 115-119), so base 10 | high; not executed | Cli.ParsePeriodAsWritten, Cli.DefaultPeriodMisread | Cli.ParsePeriod, Cli.ParsePeriodReadsSeconds |

=== FILE: cli.dfy ===
/**
 * The period option of `limitation-proxy/src/cli.rs`: its text is documented
 * as a number of seconds, but `parse_period` reads it in base 16. Both the
 * parser as written and the decimal parser the documentation describes are
 * modelled here, over Rust's `u64::from_str_radix`.
 */
module Cli {
  import opened Wrappers
  import opened Headers
  import opened Limitation

  const U64Max: nat := 0xFFFF_FFFF_FFFF_FFFF

  /** `char::to_digit`: the digit a character stands for in bases up to 36. */
  function DigitOf(c: char): Option<nat> {
    if '0' <= c <= '9' then Some(c as int - '0' as int)
    else if 'a' <= c <= 'z' then Some(c as int - 'a' as int + 10)
    else if 'A' <= c <= 'Z' then Some(c as int - 'A' as int + 10)
    else None
  }

  /** The value of a non-empty run of digits, or None on a bad digit or when a prefix leaves `u64`. */
  function DigitsValue(digits: string, radix: nat): (r: Option<nat>)
    requires 2 <= radix <= 36
    ensures r.Some? ==> r.value <= U64Max
    decreases |digits|
  {
    if |digits| == 0 then Some(0)
    else
      match DigitsValue(digits[..|digits| - 1], radix)
      case None => None
      case Some(prefix) =>
        match DigitOf(digits[|digits| - 1])
        case None => None
        case Some(d) =>
          if d >= radix || prefix * radix + d > U64Max then None
          else Some(prefix * radix + d)
  }

  /** `u64::from_str_radix`: an optional leading `+`, then at least one digit. */
  function FromStrRadix(src: string, radix: nat): (r: Option<nat>)
    requires 2 <= radix <= 36
    ensures |src| == 0 ==> r.None?
    ensures r.Some? ==> r.value <= U64Max
  {
    var digits := if |src| > 0 && src[0] == '+' then src[1..] else src;
    if |digits| == 0 then None else DigitsValue(digits, radix)
  }

  /** `parse_period` as written: the text is read in base 16. */
  function ParsePeriodAsWritten(src: string): (r: Option<Duration>)
    ensures r.Some? ==> r.value.nanos == 0 && Some(r.value.secs) == FromStrRadix(src, 16)
    ensures r.None? <==> FromStrRadix(src, 16).None?
  {
    match FromStrRadix(src, 16)
    case None => None
    case Some(secs) => Some(FromSecs(secs))
  }

  /** The command line's default period text, "3600", is read as 13824 seconds, not one hour. */
  lemma DefaultPeriodMisread()
    ensures ParsePeriodAsWritten("3600") == Some(FromSecs(13824))
  {
    var s := "3600";
    assert s[..3] == "360" && s[..3][..2] == "36" && s[..3][..2][..1] == "3";
    assert "3"[..0] == "";
    assert DigitsValue("3", 16) == Some(3);
    assert DigitsValue("36", 16) == Some(54);
    assert DigitsValue("360", 16) == Some(864);
  }

  /** `parse_period` as documented: the text is a decimal number of seconds. */
  function ParsePeriod(src: string): (r: Option<Duration>)
    ensures r.Some? ==> r.value.nanos == 0 && Some(r.value.secs) == FromStrRadix(src, 10)
    ensures r.None? <==> FromStrRadix(src, 10).None?
  {
    match FromStrRadix(src, 10)
    case None => None
    case Some(secs) => Some(FromSecs(secs))
  }

  /** The decimal text of a number of seconds parses back to that number. */
  lemma {:induction false} DecimalDigitsRoundTrip(n: nat)
    requires n <= U64Max
    ensures DigitsValue(AsText(Decimal(n)), 10) == Some(n)
    decreases n
  {
    var text := AsText(Decimal(n));
    if n < 10 {
      assert text[..0] == "";
      assert text[0] as int == 48 + n;
    } else {
      assert text[..|text| - 1] == AsText(Decimal(n / 10));
      DecimalDigitsRoundTrip(n / 10);
      assert text[|text| - 1] as int == 48 + n % 10;
    }
  }

  /** The corrected parser reads the decimal text of any `u64` back as that many seconds. */
  lemma ParsePeriodReadsSeconds(n: nat)
    requires n <= U64Max
    ensures ParsePeriod(AsText(Decimal(n))) == Some(FromSecs(n))
  {
    var text := AsText(Decimal(n));
    assert text[0] != '+';
    DecimalDigitsRoundTrip(n);
  }

  /** With the default text the two parsers disagree. */
  lemma ParsersDisagreeOnDefault()
    ensures ParsePeriod("3600") == Some(FromSecs(3600))
    ensures ParsePeriodAsWritten("3600") != ParsePeriod("3600")
  {
    assert AsText(Decimal(3600)) == "3600";
    ParsePeriodReadsSeconds(3600);
    DefaultPeriodMisread();
  }
}

=== FILE: handlers.dfy ===
/**
 * The forwarding half of `limitation-proxy/src/app/handlers.rs`: build the
 * request to the backend, strip hop-by-hop headers in both directions, add
 * `x-forwarded-for`, and relay the backend's status and headers. The HTTP
 * client and the backend are the function `send`; bodies stream through and
 * are not represented.
 */
module Handlers {
  import opened Wrappers
  import opened Headers
  import opened Http

  /** The hop-by-hop headers of section 13.5.1 of RFC 2616, as the code lists them. */
  const HopByHopHeaders: seq<Name> :=
    ["Connection", "Keep-Alive", "Proxy-Authenticate", "Proxy-Authorization",
     "TE", "Trailers", "Transfer-Encoding", "Upgrade"]

  const ForwardedFor: Name := "x-forwarded-for"

  predicate IsHopByHop(n: Name) {
    Listed(n, HopByHopHeaders)
  }

  /** `x-forwarded-for` is end-to-end. */
  lemma ForwardedForIsNotHopByHop()
    ensures !IsHopByHop(ForwardedFor)
  {
  }

  // ---------------------------------------------------------------------------
  // Hop-by-hop header removal
  // ---------------------------------------------------------------------------

  /** The code's loop: `remove` each listed name in turn. */
  function RemoveEach(h: HeaderMap, names: seq<Name>): HeaderMap
    decreases |names|
  {
    if |names| == 0 then h else RemoveEach(Remove(h, names[0]), names[1..])
  }

  /** Removing the names one at a time is filtering them all out at once. */
  lemma {:induction false} RemoveEachFilters(h: HeaderMap, names: seq<Name>)
    ensures RemoveEach(h, names) == FilterOut(h, names)
    decreases |names|
  {
    if |names| == 0 {
      FilterOutNothingListed(h, names);
    } else {
      RemoveEachFilters(Remove(h, names[0]), names[1..]);
      FilterOutTwice(h, [names[0]], names[1..]);
      assert [names[0]] + names[1..] == names;
    }
  }

  /**
   * The removal loop for any list of names: none of them survives, and every
   * other header keeps all its values in order.
   */
  function RemoveAll(h: HeaderMap, names: seq<Name>): (r: HeaderMap)
    ensures forall i :: 0 <= i < |r| ==> !Listed(r[i].name, names)
    ensures forall m :: Listed(m, names) ==> ValuesOf(r, m) == []
    ensures forall m :: !Listed(m, names) ==> ValuesOf(r, m) == ValuesOf(h, m)
    ensures forall x :: x in r <==> x in h && !Listed(x.name, names)
  {
    RemoveEachFilters(h, names);
    var r := RemoveEach(h, names);
    forall i | 0 <= i < |r| ensures !Listed(r[i].name, names) {
      assert r[i] in r;
    }
    forall m ensures ValuesOf(r, m) == if Listed(m, names) then [] else ValuesOf(h, m) {
      FilterOutValues(h, names, m);
    }
    r
  }

  /**
   * The removal both `drop_hop_headers_on_request` and
   * `drop_hop_headers_on_response` perform: no hop-by-hop header survives,
   * and every other header keeps all its values in order.
   */
  function DropHopHeaders(h: HeaderMap): (r: HeaderMap)
    ensures forall i :: 0 <= i < |r| ==> !IsHopByHop(r[i].name)
    ensures forall m :: IsHopByHop(m) ==> ValuesOf(r, m) == []
    ensures forall m :: !IsHopByHop(m) ==> ValuesOf(r, m) == ValuesOf(h, m)
    ensures forall x :: x in r <==> x in h && !IsHopByHop(x.name)
  {
    RemoveAll(h, HopByHopHeaders)
  }

  /** Removing the same names a second time changes nothing. */
  lemma RemoveAllIdempotent(h: HeaderMap, names: seq<Name>)
    ensures RemoveAll(RemoveAll(h, names), names) == RemoveAll(h, names)
  {
    RemoveEachFilters(h, names);
    RemoveEachFilters(RemoveAll(h, names), names);
    FilterOutIdempotent(h, names);
  }

  /** A header map holding none of the names passes through unchanged. */
  lemma RemoveAllKeepsCleanMap(h: HeaderMap, names: seq<Name>)
    requires forall i :: 0 <= i < |h| ==> !Listed(h[i].name, names)
    ensures RemoveAll(h, names) == h
  {
    RemoveEachFilters(h, names);
    FilterOutNothingListed(h, names);
  }

  /** Appending an unlisted header commutes with removing the listed ones. */
  lemma {:induction false} RemoveAllAppendCommute(h: HeaderMap, names: seq<Name>, n: Name, v: Value)
    requires !Listed(n, names)
    ensures RemoveAll(Append(h, n, v), names) == Append(RemoveAll(h, names), n, v)
  {
    RemoveEachFilters(h + [Header(n, v)], names);
    RemoveEachFilters(h, names);
    FilterOutConcat(h, [Header(n, v)], names);
    assert [Header(n, v)][1..] == [];
    assert FilterOut([Header(n, v)], names) == [Header(n, v)];
  }

  /** Dropping hop-by-hop headers a second time changes nothing. */
  lemma DropHopHeadersIdempotent(h: HeaderMap)
    ensures DropHopHeaders(DropHopHeaders(h)) == DropHopHeaders(h)
  {
    RemoveAllIdempotent(h, HopByHopHeaders);
  }

  /** A header map without hop-by-hop headers passes through unchanged. */
  lemma DropHopHeadersKeepsCleanMap(h: HeaderMap)
    requires forall i :: 0 <= i < |h| ==> !IsHopByHop(h[i].name)
    ensures DropHopHeaders(h) == h
  {
    RemoveAllKeepsCleanMap(h, HopByHopHeaders);
  }

  /**
   * Appending an end-to-end header commutes with dropping the hop-by-hop
   * ones: the entry `add_headers_on_request` appends survives whichever runs
   * first.
   */
  lemma DropThenAppendCommute(h: HeaderMap, n: Name, v: Value)
    requires !IsHopByHop(n)
    ensures DropHopHeaders(Append(h, n, v)) == Append(DropHopHeaders(h), n, v)
  {
    RemoveAllAppendCommute(h, HopByHopHeaders, n, v);
  }

  // ---------------------------------------------------------------------------
  // Target URL
  // ---------------------------------------------------------------------------

  /** The parts of a parsed URL the proxy keeps or replaces. */
  datatype Url = Url(scheme: string, userinfo: string, host: Option<string>, port: Option<nat>,
                     path: string, query: Option<string>, fragment: Option<string>)

  /**
   * `proxy_url`: the backend URL with the request's path and query; a request
   * without a query leaves none on the target.
   */
  function ProxyUrl(proxyTo: Url, uri: Uri): (u: Url)
    ensures u.scheme == proxyTo.scheme && u.userinfo == proxyTo.userinfo
    ensures u.host == proxyTo.host && u.port == proxyTo.port && u.fragment == proxyTo.fragment
    ensures u.path == uri.path && u.query == uri.query
  {
    proxyTo.(path := uri.path, query := uri.query)
  }

  /** The target depends on the backend URL only through its origin and fragment. */
  lemma ProxyUrlIgnoresTargetPath(a: Url, b: Url, uri: Uri)
    requires a.scheme == b.scheme && a.userinfo == b.userinfo && a.host == b.host
    requires a.port == b.port && a.fragment == b.fragment
    ensures ProxyUrl(a, uri) == ProxyUrl(b, uri)
  {
  }

  // ---------------------------------------------------------------------------
  // Outbound request and relayed response
  // ---------------------------------------------------------------------------

  /** The request sent to the backend. */
  datatype ClientRequest = ClientRequest(verb: string, url: Url, headers: HeaderMap)

  /** What the backend answered. */
  datatype ClientResponse = ClientResponse(status: nat, headers: HeaderMap)

  function DropHopHeadersOnRequest(r: ClientRequest): (out: ClientRequest)
    ensures out.verb == r.verb && out.url == r.url
    ensures forall i :: 0 <= i < |out.headers| ==> !IsHopByHop(out.headers[i].name)
    ensures forall m :: !IsHopByHop(m) ==> ValuesOf(out.headers, m) == ValuesOf(r.headers, m)
  {
    r.(headers := DropHopHeaders(r.headers))
  }

  function DropHopHeadersOnResponse(r: Response): (out: Response)
    ensures out.status == r.status
    ensures forall i :: 0 <= i < |out.headers| ==> !IsHopByHop(out.headers[i].name)
    ensures forall m :: !IsHopByHop(m) ==> ValuesOf(out.headers, m) == ValuesOf(r.headers, m)
  {
    r.(headers := DropHopHeaders(r.headers))
  }

  /**
   * `add_headers_on_request`: with a known peer, its IP joins the existing
   * `x-forwarded-for` values at the end; without one nothing changes.
   */
  function AddHeadersOnRequest(proxied: ClientRequest, req: Request): (out: ClientRequest)
    ensures out.verb == proxied.verb && out.url == proxied.url
    ensures req.peerIp.None? ==> out == proxied
    ensures req.peerIp.Some? ==>
              ValuesOf(out.headers, ForwardedFor) == ValuesOf(proxied.headers, ForwardedFor) + [req.peerIp.value]
    ensures forall m :: !SameName(m, ForwardedFor) ==> ValuesOf(out.headers, m) == ValuesOf(proxied.headers, m)
  {
    match req.peerIp
    case None => proxied
    case Some(ip) => proxied.(headers := Append(proxied.headers, ForwardedFor, ip))
  }

  /**
   * Removing listed names and then appending an unlisted one, as
   * `proxied_request` does with hop-by-hop headers and `x-forwarded-for`.
   */
  lemma ForwardedHeaders(h: HeaderMap, names: seq<Name>, peerIp: Option<Value>)
    requires !Listed(ForwardedFor, names)
    ensures var r := match peerIp
                     case None => RemoveAll(h, names)
                     case Some(ip) => Append(RemoveAll(h, names), ForwardedFor, ip);
            && (forall i :: 0 <= i < |r| ==> !Listed(r[i].name, names))
            && ValuesOf(r, ForwardedFor)
                 == ValuesOf(h, ForwardedFor) + (if peerIp.Some? then [peerIp.value] else [])
            && forall m :: !Listed(m, names) && !SameName(m, ForwardedFor) ==> ValuesOf(r, m) == ValuesOf(h, m)
  {
    var kept := RemoveAll(h, names);
    if peerIp.Some? {
      var r := Append(kept, ForwardedFor, peerIp.value);
      assert r == kept + [Header(ForwardedFor, peerIp.value)];
      forall i | 0 <= i < |r| ensures !Listed(r[i].name, names) {
        if i < |kept| {
          assert r[i] == kept[i];
        }
      }
    }
  }

  /**
   * The HTTP client's `request_from`: a request with the inbound method to
   * `url`, whose headers are the inbound ones copied one by one with
   * `set_header_if_none`, so each name keeps only its first value.
   */
  function RequestFrom(url: Url, req: Request): (out: ClientRequest)
    ensures out.verb == req.verb && out.url == url
    ensures forall m :: ValuesOf(out.headers, m) == FirstOnly(ValuesOf(req.headers, m))
  {
    ClientRequest(req.verb, url, CopyFirst(req.headers))
  }

  /**
   * `proxied_request`: the inbound method and headers retargeted at the
   * backend, hop-by-hop headers dropped, then the caller's IP appended to
   * `x-forwarded-for`. Since the copy keeps one value per name, an inbound
   * `x-forwarded-for` contributes only its first value.
   */
  function ProxiedRequest(proxyTo: Url, req: Request): (out: ClientRequest)
    ensures out.verb == req.verb && out.url == ProxyUrl(proxyTo, req.uri)
    ensures forall i :: 0 <= i < |out.headers| ==> !IsHopByHop(out.headers[i].name)
    ensures ValuesOf(out.headers, ForwardedFor)
              == FirstOnly(ValuesOf(req.headers, ForwardedFor))
                 + (if req.peerIp.Some? then [req.peerIp.value] else [])
    ensures forall m :: !IsHopByHop(m) && !SameName(m, ForwardedFor) ==>
              ValuesOf(out.headers, m) == FirstOnly(ValuesOf(req.headers, m))
  {
    ForwardedForIsNotHopByHop();
    var copied := RequestFrom(ProxyUrl(proxyTo, req.uri), req);
    var out := AddHeadersOnRequest(DropHopHeadersOnRequest(copied), req);
    ForwardedHeaders(copied.headers, HopByHopHeaders, req.peerIp);
    out
  }

  /** `response`: the backend's status, and its headers without the hop-by-hop ones. */
  function RelayResponse(backend: ClientResponse): (out: Response)
    ensures out.status == backend.status
    ensures forall i :: 0 <= i < |out.headers| ==> !IsHopByHop(out.headers[i].name)
    ensures forall m :: !IsHopByHop(m) ==> ValuesOf(out.headers, m) == ValuesOf(backend.headers, m)
  {
    DropHopHeadersOnResponse(Response(backend.status, backend.headers))
  }

  /**
   * `forward`: send the proxied request and relay the answer. A failure to
   * reach the backend is passed back as it is.
   */
  function Forward<E>(proxyTo: Url, req: Request, send: ClientRequest -> Result<ClientResponse, E>): (r: Result<Response, E>)
    ensures r.Ok? <==> send(ProxiedRequest(proxyTo, req)).Ok?
    ensures send(ProxiedRequest(proxyTo, req)).Err? ==> r == Err(send(ProxiedRequest(proxyTo, req)).error)
    ensures r.Ok? ==>
              && send(ProxiedRequest(proxyTo, req)).Ok?
              && r.value.status == send(ProxiedRequest(proxyTo, req)).value.status
              && (forall i :: 0 <= i < |r.value.headers| ==> !IsHopByHop(r.value.headers[i].name))
              && forall m :: !IsHopByHop(m) ==>
                   ValuesOf(r.value.headers, m) == ValuesOf(send(ProxiedRequest(proxyTo, req)).value.headers, m)
  {
    match send(ProxiedRequest(proxyTo, req))
    case Ok(res) => Ok(RelayResponse(res))
    case Err(e) => Err(e)
  }
}

=== FILE: headers.dfy ===
/**
 * HTTP header maps as the rate-limiting middleware and the reverse proxy see
 * them: an ordered list of (name, value) entries. Header names are ASCII and
 * compare case-insensitively (the HTTP library lower-cases a name when it is
 * constructed, so `remove("Connection")` removes `connection`). Values are
 * bytes.
 *
 * The library's map keeps the values of one name in insertion order but says
 * nothing about the order across names; the operations here are stated per
 * name (`ValuesOf`), which is all the library promises.
 */
module Headers {
  import opened Wrappers

  newtype byte = x: int | 0 <= x < 256

  type Name = string
  type Value = seq<byte>

  datatype Header = Header(name: Name, value: Value)

  type HeaderMap = seq<Header>

  // ---------------------------------------------------------------------------
  // Case-insensitive names
  // ---------------------------------------------------------------------------

  function LowerChar(c: char): char {
    if 'A' <= c <= 'Z' then (c as int + 32) as char else c
  }

  function Lower(s: string): (r: string)
    ensures |r| == |s|
    ensures forall i :: 0 <= i < |s| ==> r[i] == LowerChar(s[i])
  {
    seq(|s|, i requires 0 <= i < |s| => LowerChar(s[i]))
  }

  /** Two header names denote the same header. */
  predicate SameName(a: Name, b: Name) {
    Lower(a) == Lower(b)
  }

  /** `n` is one of `names`, compared case-insensitively. */
  predicate Listed(n: Name, names: seq<Name>) {
    exists j :: 0 <= j < |names| && SameName(names[j], n)
  }

  lemma ListedConcat(n: Name, a: seq<Name>, b: seq<Name>)
    ensures Listed(n, a + b) <==> Listed(n, a) || Listed(n, b)
  {
    if Listed(n, a + b) {
      var j :| 0 <= j < |a + b| && SameName((a + b)[j], n);
      if j >= |a| {
        assert b[j - |a|] == (a + b)[j];
      }
    }
    if Listed(n, a) {
      var j :| 0 <= j < |a| && SameName(a[j], n);
      assert (a + b)[j] == a[j];
    }
    if Listed(n, b) {
      var j :| 0 <= j < |b| && SameName(b[j], n);
      assert (a + b)[|a| + j] == b[j];
    }
  }

  // ---------------------------------------------------------------------------
  // Reading a header map
  // ---------------------------------------------------------------------------

  /** Every value recorded under `n`, in order (the library's `get_all`). */
  function ValuesOf(h: HeaderMap, n: Name): seq<Value>
    decreases |h|
  {
    if |h| == 0 then []
    else (if SameName(h[0].name, n) then [h[0].value] else []) + ValuesOf(h[1..], n)
  }

  /** No entry of `h` is named `n`. */
  predicate Absent(h: HeaderMap, n: Name) {
    forall i :: 0 <= i < |h| ==> !SameName(h[i].name, n)
  }

  /** The first value recorded under `n` (the library's `get`). */
  function Get(h: HeaderMap, n: Name): (r: Option<Value>)
    ensures r.None? <==> ValuesOf(h, n) == []
    ensures r.Some? ==> r.value == ValuesOf(h, n)[0]
    decreases |h|
  {
    if |h| == 0 then None
    else if SameName(h[0].name, n) then Some(h[0].value)
    else Get(h[1..], n)
  }

  lemma {:induction false} AbsentHasNoValues(h: HeaderMap, n: Name)
    ensures Absent(h, n) <==> ValuesOf(h, n) == []
    decreases |h|
  {
    if |h| > 0 {
      AbsentHasNoValues(h[1..], n);
      if Absent(h[1..], n) && !SameName(h[0].name, n) {
        forall i | 0 <= i < |h| ensures !SameName(h[i].name, n) {
          if i > 0 {
            assert h[i] == h[1..][i - 1];
          }
        }
      }
      if Absent(h, n) {
        forall i | 0 <= i < |h[1..]| ensures !SameName(h[1..][i].name, n) {
          assert h[1..][i] == h[i + 1];
        }
      }
    }
  }

  lemma {:induction false} ValuesOfConcat(a: HeaderMap, b: HeaderMap, n: Name)
    ensures ValuesOf(a + b, n) == ValuesOf(a, n) + ValuesOf(b, n)
    decreases |a|
  {
    if |a| > 0 {
      assert (a + b)[1..] == a[1..] + b;
      ValuesOfConcat(a[1..], b, n);
    } else {
      assert a + b == b;
    }
  }

  // ---------------------------------------------------------------------------
  // Removing entries
  // ---------------------------------------------------------------------------

  /** Every entry whose name is not among `names`, in its original position order. */
  function FilterOut(h: HeaderMap, names: seq<Name>): (r: HeaderMap)
    ensures |r| <= |h|
    ensures forall x :: x in r ==> x in h && !Listed(x.name, names)
    ensures forall x :: x in h && !Listed(x.name, names) ==> x in r
    decreases |h|
  {
    if |h| == 0 then []
    else (if Listed(h[0].name, names) then [] else [h[0]]) + FilterOut(h[1..], names)
  }

  /** Filtering removes every value of a listed name and keeps every value of any other name. */
  lemma {:induction false} FilterOutValues(h: HeaderMap, names: seq<Name>, m: Name)
    ensures ValuesOf(FilterOut(h, names), m) == if Listed(m, names) then [] else ValuesOf(h, m)
    decreases |h|
  {
    if |h| > 0 {
      var head := if Listed(h[0].name, names) then [] else [h[0]];
      FilterOutValues(h[1..], names, m);
      ValuesOfConcat(head, FilterOut(h[1..], names), m);
      if head != [] {
        assert head[1..] == [];
      }
    }
  }

  lemma {:induction false} FilterOutConcat(a: HeaderMap, b: HeaderMap, names: seq<Name>)
    ensures FilterOut(a + b, names) == FilterOut(a, names) + FilterOut(b, names)
    decreases |a|
  {
    if |a| > 0 {
      assert (a + b)[1..] == a[1..] + b;
      FilterOutConcat(a[1..], b, names);
    } else {
      assert a + b == b;
    }
  }

  /** Filtering by `a` and then by `b` is filtering by both lists at once. */
  lemma {:induction false} FilterOutTwice(h: HeaderMap, a: seq<Name>, b: seq<Name>)
    ensures FilterOut(FilterOut(h, a), b) == FilterOut(h, a + b)
    decreases |h|
  {
    if |h| > 0 {
      ListedConcat(h[0].name, a, b);
      var head := if Listed(h[0].name, a) then [] else [h[0]];
      FilterOutConcat(head, FilterOut(h[1..], a), b);
      FilterOutTwice(h[1..], a, b);
      if head != [] {
        assert head[1..] == [];
      }
    }
  }

  /** A map with no entry among `names` is left as it is. */
  lemma {:induction false} FilterOutNothingListed(h: HeaderMap, names: seq<Name>)
    requires forall i :: 0 <= i < |h| ==> !Listed(h[i].name, names)
    ensures FilterOut(h, names) == h
    decreases |h|
  {
    if |h| > 0 {
      assert !Listed(h[0].name, names);
      forall i | 0 <= i < |h[1..]| ensures !Listed(h[1..][i].name, names) {
        assert h[1..][i] == h[i + 1];
      }
      FilterOutNothingListed(h[1..], names);
    }
  }

  /** Filtering twice by the same names is filtering once. */
  lemma FilterOutIdempotent(h: HeaderMap, names: seq<Name>)
    ensures FilterOut(FilterOut(h, names), names) == FilterOut(h, names)
  {
    var r := FilterOut(h, names);
    forall i | 0 <= i < |r| ensures !Listed(r[i].name, names) {
      assert r[i] in r;
    }
    FilterOutNothingListed(r, names);
  }

  // ---------------------------------------------------------------------------
  // The three mutations the code uses: remove, insert, append
  // ---------------------------------------------------------------------------

  /** `remove(n)`: every value of `n` goes, every other header keeps its values. */
  function Remove(h: HeaderMap, n: Name): (r: HeaderMap)
    ensures Absent(r, n)
    ensures forall m :: !SameName(m, n) ==> ValuesOf(r, m) == ValuesOf(h, m)
  {
    var r := FilterOut(h, [n]);
    assert forall m :: Listed(m, [n]) <==> SameName(m, n) by {
      forall m ensures Listed(m, [n]) <==> SameName(m, n) {
        if SameName(m, n) {
          assert SameName([n][0], m);
        }
      }
    }
    forall m ensures ValuesOf(r, m) == if SameName(m, n) then [] else ValuesOf(h, m) {
      FilterOutValues(h, [n], m);
    }
    AbsentHasNoValues(r, n);
    r
  }

  /** `insert(n, v)`: `n` ends up with exactly the one value `v`; every other header is unchanged. */
  function Insert(h: HeaderMap, n: Name, v: Value): (r: HeaderMap)
    ensures ValuesOf(r, n) == [v]
    ensures forall m :: !SameName(m, n) ==> ValuesOf(r, m) == ValuesOf(h, m)
  {
    var kept := Remove(h, n);
    var r := kept + [Header(n, v)];
    forall m ensures ValuesOf(r, m) == ValuesOf(kept, m) + (if SameName(n, m) then [v] else []) {
      ValuesOfConcat(kept, [Header(n, v)], m);
      assert [Header(n, v)][1..] == [];
    }
    AbsentHasNoValues(kept, n);
    r
  }

  /** `append(n, v)`: `v` joins the existing values of `n` at the end; every other header is unchanged. */
  function Append(h: HeaderMap, n: Name, v: Value): (r: HeaderMap)
    ensures ValuesOf(r, n) == ValuesOf(h, n) + [v]
    ensures forall m :: !SameName(m, n) ==> ValuesOf(r, m) == ValuesOf(h, m)
  {
    var r := h + [Header(n, v)];
    forall m ensures ValuesOf(r, m) == ValuesOf(h, m) + (if SameName(n, m) then [v] else []) {
      ValuesOfConcat(h, [Header(n, v)], m);
      assert [Header(n, v)][1..] == [];
    }
    r
  }

  /** Header names that are the same header have the same values. */
  lemma {:induction false} ValuesOfSameName(h: HeaderMap, m: Name, n: Name)
    requires SameName(m, n)
    ensures ValuesOf(h, m) == ValuesOf(h, n)
    decreases |h|
  {
    if |h| > 0 {
      ValuesOfSameName(h[1..], m, n);
    }
  }

  /** The first of a list of values, or nothing when the list is empty. */
  function FirstOnly(vs: seq<Value>): seq<Value> {
    if vs == [] then [] else [vs[0]]
  }

  /** `set_header_if_none(n, v)`: `n` gets the value `v` only when it has no value yet. */
  function SetIfNone(h: HeaderMap, n: Name, v: Value): (r: HeaderMap)
    ensures ValuesOf(h, n) == [] ==> ValuesOf(r, n) == [v]
    ensures ValuesOf(h, n) != [] ==> ValuesOf(r, n) == ValuesOf(h, n)
    ensures forall m :: !SameName(m, n) ==> ValuesOf(r, m) == ValuesOf(h, m)
  {
    if Get(h, n).Some? then h else Insert(h, n, v)
  }

  /** Copies the entries of `h` into `acc` in order with `SetIfNone`. */
  function CopyInto(acc: HeaderMap, h: HeaderMap): HeaderMap
    decreases |h|
  {
    if |h| == 0 then acc else CopyInto(SetIfNone(acc, h[0].name, h[0].value), h[1..])
  }

  /**
   * A name that already has values in `acc` keeps them; any other name ends
   * with the first value `h` records for it, and only that one.
   */
  lemma {:induction false} CopyIntoValues(acc: HeaderMap, h: HeaderMap, m: Name)
    ensures ValuesOf(CopyInto(acc, h), m)
              == if ValuesOf(acc, m) != [] then ValuesOf(acc, m) else FirstOnly(ValuesOf(h, m))
    decreases |h|
  {
    if |h| > 0 {
      var next := SetIfNone(acc, h[0].name, h[0].value);
      CopyIntoValues(next, h[1..], m);
      if SameName(m, h[0].name) {
        ValuesOfSameName(acc, m, h[0].name);
        ValuesOfSameName(next, m, h[0].name);
      }
    }
  }

  /**
   * Copying every entry of `h` into an empty map with `SetIfNone`: each name
   * keeps exactly its first value, and a name `h` lacks stays absent.
   */
  function CopyFirst(h: HeaderMap): (r: HeaderMap)
    ensures forall m :: ValuesOf(r, m) == FirstOnly(ValuesOf(h, m))
  {
    forall m ensures ValuesOf(CopyInto([], h), m) == FirstOnly(ValuesOf(h, m)) {
      CopyIntoValues([], h, m);
    }
    CopyInto([], h)
  }

  // ---------------------------------------------------------------------------
  // Header values: text and decimal integers
  // ---------------------------------------------------------------------------

  /** The bytes `HeaderValue::to_str` accepts: horizontal tab and visible ASCII. */
  predicate VisibleAscii(v: Value) {
    forall i :: 0 <= i < |v| ==> v[i] == 9 || 32 <= v[i] < 127
  }

  /** A byte string read as text, one character per byte. */
  function AsText(v: Value): (s: string)
    ensures |s| == |v|
    ensures forall i :: 0 <= i < |v| ==> s[i] as int == v[i] as int
  {
    seq(|v|, i requires 0 <= i < |v| => (v[i] as int) as char)
  }

  predicate IsDigit(b: byte) {
    48 <= b < 58
  }

  function DigitByte(d: nat): (b: byte)
    requires d < 10
    ensures IsDigit(b)
  {
    (48 + d) as byte
  }

  /** The decimal rendering `HeaderValue::from(usize)` produces: digits, no leading zero. */
  function Decimal(n: nat): (r: Value)
    ensures |r| >= 1
    ensures forall i :: 0 <= i < |r| ==> IsDigit(r[i])
    ensures r[0] == 48 <==> n == 0
    ensures r[0] == 48 ==> |r| == 1
    decreases n
  {
    if n < 10 then [DigitByte(n)] else Decimal(n / 10) + [DigitByte(n % 10)]
  }

  /** The number a string of decimal digits denotes. */
  function DecimalValue(v: Value): nat
    requires forall i :: 0 <= i < |v| ==> IsDigit(v[i])
    decreases |v|
  {
    if |v| == 0 then 0
    else
      assert IsDigit(v[|v| - 1]);
      DecimalValue(v[..|v| - 1]) * 10 + (v[|v| - 1] as int - 48)
  }

  /** A client reading a decimal header value gets back the number that was written. */
  lemma {:induction false} DecimalRoundTrip(n: nat)
    ensures DecimalValue(Decimal(n)) == n
    decreases n
  {
    if n >= 10 {
      var r := Decimal(n);
      assert r[..|r| - 1] == Decimal(n / 10);
      DecimalRoundTrip(n / 10);
    }
  }
}

=== FILE: http.dfy ===
/**
 * The parts of an HTTP exchange the middleware and the proxy look at. Bodies
 * are streamed through untouched and are not represented.
 */
module Http {
  import opened Wrappers
  import opened Headers

  const Forbidden: nat := 403

  /** The request target: path and optional query string. */
  datatype Uri = Uri(path: string, query: Option<string>)

  /**
   * An inbound request. `peerIp` is the textual form of the caller's IP
   * address when the connection knows it.
   */
  datatype Request = Request(verb: string, uri: Uri, headers: HeaderMap, peerIp: Option<Value>)

  datatype Response = Response(status: nat, headers: HeaderMap)
}

=== FILE: limitation.dfy ===
/**
 * The fixed-window counter of `limitation/src/lib.rs`.
 *
 * Redis is an abstract store: a map from key to counter record, observed at
 * an explicit clock `now` in whole seconds. A record is live while
 * `now < expiry`; Redis drops it (and `SET ... NX` sees the key as absent)
 * from its expiry on. The transaction `SET key 0 EX period NX; INCR key;
 * TTL key` is one atomic step, `Transact`. Whether Redis can be reached at
 * all is the parameter `reachable`.
 */
module Limitation {
  import opened Wrappers

  /** The default number of requests allowed in one period. */
  const DefaultLimit: nat := 5000
  /** The default length of a period, in seconds. */
  const DefaultPeriodSecs: nat := 60 * 60

  /** The largest `usize` on the 64-bit targets the code is built for. */
  const UsizeMax: int := 0xFFFF_FFFF_FFFF_FFFF
  /** The largest signed 64-bit integer, the largest expire time Redis reads. */
  const I64Max: nat := 0x7FFF_FFFF_FFFF_FFFF
  /** The longest span, in whole seconds, a chrono duration can hold (`i64::MAX` milliseconds). */
  const MaxChronoSecs: nat := 9_223_372_036_854_775

  /** A `std::time::Duration`: whole seconds plus a sub-second part. */
  datatype Duration = Duration(secs: nat, nanos: nat)

  function FromSecs(secs: nat): Duration {
    Duration(secs, 0)
  }

  datatype Limiter = Limiter(limit: nat, period: Duration)

  /** A key's snapshot: the limit, what is left of it, and when the window ends (UNIX seconds). */
  datatype Status = Status(limit: nat, remaining: nat, resetEpochUtc: nat)

  datatype Error =
    | Client          // Redis could not be reached or refused the transaction
    | LimitExceeded(status: Status)
    | Time            // the TTL does not fit a chrono duration

  // ---------------------------------------------------------------------------
  // Builder
  // ---------------------------------------------------------------------------

  datatype Builder = Builder(redisUrl: string, limit: nat, period: Duration)

  /** `Builder::limit`: sets the limit; nothing else changes. */
  function WithLimit(b: Builder, limit: nat): (r: Builder)
    ensures r.limit == limit
    ensures r.redisUrl == b.redisUrl && r.period == b.period
  {
    b.(limit := limit)
  }

  /** `Builder::period`: sets the period; nothing else changes. */
  function WithPeriod(b: Builder, period: Duration): (r: Builder)
    ensures r.period == period
    ensures r.redisUrl == b.redisUrl && r.limit == b.limit
  {
    b.(period := period)
  }

  /** `Limiter::build`: a builder holding the defaults, 5000 requests per hour. */
  function Build(redisUrl: string): (b: Builder)
    ensures b.redisUrl == redisUrl
    ensures b.limit == 5000
    ensures b.period.secs == 3600 && b.period.nanos == 0
  {
    Builder(redisUrl, DefaultLimit, FromSecs(DefaultPeriodSecs))
  }

  /**
   * `Builder::finish`: the limiter takes the builder's limit and period.
   * `opens` says whether the Redis client accepts the URL.
   */
  function Finish(b: Builder, opens: string -> bool): (r: Result<Limiter, Error>)
    ensures r.Ok? <==> opens(b.redisUrl)
    ensures r.Ok? ==> r.value.limit == b.limit && r.value.period == b.period
    ensures r.Err? ==> r.error == Client
  {
    if opens(b.redisUrl) then Ok(Limiter(b.limit, b.period)) else Err(Client)
  }

  // ---------------------------------------------------------------------------
  // The counter store and its atomic transaction
  // ---------------------------------------------------------------------------

  datatype Record = Record(count: nat, expiry: nat)

  type Store = map<string, Record>

  /** Redis still holds `key` at time `now`. */
  predicate Live(s: Store, key: string, now: nat) {
    key in s && now < s[key].expiry
  }

  /**
   * Redis accepts the period's whole seconds as the `EX` of `SET`: it
   * refuses zero and anything that is not a signed 64-bit integer.
   */
  predicate ExpiresAccepted(l: Limiter) {
    0 < l.period.secs <= I64Max
  }

  /** The transaction's reply (the `INCR` count and the `TTL`) and the store after it. */
  datatype Reply = Reply(store: Store, count: nat, ttl: nat)

  /**
   * `SET key 0 EX expires NX`, `INCR key`, `TTL key`, run atomically.
   * Redis rejects an expire time it does not accept (`ExpiresAccepted`),
   * which `Track` handles before this step.
   */
  function Transact(s: Store, key: string, expires: nat, now: nat): (r: Reply)
    requires expires > 0
    ensures key in r.store && r.store == s[key := r.store[key]]
    ensures Live(s, key, now) ==> r.store[key] == Record(s[key].count + 1, s[key].expiry)
    ensures !Live(s, key, now) ==> r.store[key] == Record(1, now + expires)
    ensures r.count == r.store[key].count
    ensures now + r.ttl == r.store[key].expiry && 1 <= r.ttl
    ensures !Live(s, key, now) ==> r.ttl == expires
  {
    var seeded := if Live(s, key, now) then s else s[key := Record(0, now + expires)];
    var rec := seeded[key];
    var incremented := seeded[key := Record(rec.count + 1, rec.expiry)];
    Reply(incremented, rec.count + 1, rec.expiry - now)
  }

  // ---------------------------------------------------------------------------
  // Time
  // ---------------------------------------------------------------------------

  /**
   * `epoch_utc_plus`: the UNIX timestamp `clock + ttl`, or `Time` when the
   * TTL does not fit a chrono duration; a timestamp that does not fit a
   * `usize` becomes 0.
   */
  function EpochUtcPlus(clock: int, ttl: nat): (r: Result<nat, Error>)
    ensures r.Err? <==> ttl > MaxChronoSecs
    ensures r.Err? ==> r.error == Time
    ensures r.Ok? && 0 <= clock + ttl <= UsizeMax ==> r.value == clock + ttl
    ensures r.Ok? && !(0 <= clock + ttl <= UsizeMax) ==> r.value == 0
  {
    if ttl > MaxChronoSecs then Err(Time)
    else
      var stamp := clock + ttl;
      if 0 <= stamp <= UsizeMax then Ok(stamp) else Ok(0)
  }

  // ---------------------------------------------------------------------------
  // Counting
  // ---------------------------------------------------------------------------

  /** `track`'s outcome, the count and the reset timestamp, and the store after it. */
  datatype Tracked = Tracked(store: Store, result: Result<(nat, nat), Error>)

  /**
   * `Limiter::track`: runs the transaction with the period's whole seconds as
   * expire time and turns the TTL into a reset timestamp.
   */
  function Track(l: Limiter, s: Store, key: string, now: nat, reachable: bool): (t: Tracked)
    ensures !reachable || !ExpiresAccepted(l) ==> t == Tracked(s, Err(Client))
    ensures reachable && ExpiresAccepted(l) ==>
              key in t.store && t.store == s[key := t.store[key]]
              && (Live(s, key, now) ==> t.store[key].expiry == s[key].expiry)
    ensures t.result.Ok? ==>
              key in t.store
              && t.result.value.0 == t.store[key].count
              && (t.store[key].expiry <= UsizeMax ==> t.result.value.1 == t.store[key].expiry)
    ensures reachable && ExpiresAccepted(l) ==>
              (t.result.Err? <==> t.store[key].expiry - now > MaxChronoSecs)
              && (t.result.Err? ==> t.result.error == Time)
    ensures t.result.Err? ==> t.result.error in {Client, Time}
  {
    if !reachable || !ExpiresAccepted(l) then Tracked(s, Err(Client))
    else
      var reply := Transact(s, key, l.period.secs, now);
      match EpochUtcPlus(now, reply.ttl)
      case Err(e) => Tracked(reply.store, Err(e))
      case Ok(reset) => Tracked(reply.store, Ok((reply.count, reset)))
  }

  /** `build_status`: the remaining allowance never goes below zero. */
  function BuildStatus(count: nat, limit: nat, resetEpochUtc: nat): (st: Status)
    ensures st.limit == limit && st.resetEpochUtc == resetEpochUtc
    ensures st.remaining <= limit
    ensures st.remaining + (if count < limit then count else limit) == limit
  {
    var remaining := if count >= limit then 0 else limit - count;
    Status(limit, remaining, resetEpochUtc)
  }

  /** The decision `count` takes on a tracked count: the limit is inclusive. */
  function Decide(count: nat, limit: nat, resetEpochUtc: nat): (r: Result<Status, Error>)
    ensures r.Ok? <==> count <= limit
    ensures r.Ok? ==> r.value == Status(limit, limit - count, resetEpochUtc)
    ensures r.Err? ==> r.error == LimitExceeded(Status(limit, 0, resetEpochUtc))
  {
    var status := BuildStatus(count, limit, resetEpochUtc);
    if count > limit then Err(LimitExceeded(status)) else Ok(status)
  }

  /** `Limiter::count` together with the store it leaves behind. */
  datatype Counted = Counted(store: Store, result: Result<Status, Error>)

  /** `Limiter::count`: counts one request on `key` and reports the key's status. */
  function Count(l: Limiter, s: Store, key: string, now: nat, reachable: bool): (c: Counted)
    ensures !reachable || !ExpiresAccepted(l) ==> c == Counted(s, Err(Client))
    ensures reachable && ExpiresAccepted(l) ==>
              key in c.store && c.store == s[key := c.store[key]]
              && (Live(s, key, now) ==> c.store[key] == Record(s[key].count + 1, s[key].expiry))
              && (!Live(s, key, now) ==> c.store[key] == Record(1, now + l.period.secs))
    ensures c.result.Ok? ==>
              key in c.store && c.store[key].count <= l.limit
              && c.result.value.limit == l.limit
              && c.result.value.remaining == l.limit - c.store[key].count
    ensures c.result.Err? && c.result.error.LimitExceeded? ==>
              key in c.store && c.store[key].count > l.limit
              && c.result.error.status.limit == l.limit
              && c.result.error.status.remaining == 0
    ensures (c.result.Ok? || c.result.error.LimitExceeded?) && c.store[key].expiry <= UsizeMax ==>
              (if c.result.Ok? then c.result.value else c.result.error.status).resetEpochUtc
                == c.store[key].expiry
    ensures reachable && ExpiresAccepted(l) ==>
              (c.result == Err(Time) <==> c.store[key].expiry - now > MaxChronoSecs)
    ensures reachable && ExpiresAccepted(l) && c.store[key].expiry - now <= MaxChronoSecs
            && c.store[key].expiry <= UsizeMax ==>
              c.result == Decide(c.store[key].count, l.limit, c.store[key].expiry)
  {
    var t := Track(l, s, key, now, reachable);
    match t.result
    case Err(e) => Counted(t.store, Err(e))
    case Ok((count, reset)) => Counted(t.store, Decide(count, l.limit, reset))
  }
}

=== FILE: pipeline.dfy ===
/**
 * The proxy service as deployed: the rate-limiting middleware wrapped around
 * the forwarding handler, with the handler as the middleware's inner service.
 */
module Pipeline {
  import opened Wrappers
  import opened Headers
  import opened Http
  import opened Limitation
  import opened RateLimiter
  import opened Handlers

  /** No rate-limit header name is a hop-by-hop header. */
  lemma RateLimitNamesAreEndToEnd(m: Name)
    requires IsRateLimitName(m)
    ensures !IsHopByHop(m)
  {
    forall j | 0 <= j < |HopByHopHeaders| ensures !SameName(HopByHopHeaders[j], m) {
      if |HopByHopHeaders[j]| == |m| {
        assert Lower(HopByHopHeaders[j])[0] != Lower(m)[0];
      }
    }
  }

  /**
   * One request through the whole service: middleware first, then the proxy
   * handler. The counter store depends only on the key, never on the
   * backend, the handler runs at most once, and an error reply is always the
   * handler's own.
   */
  function Serve<E>(tokenHeader: Name, limiter: Limiter, s: Store, now: nat, reachable: bool,
                    proxyTo: Url, req: Request, send: ClientRequest -> Result<ClientResponse, E>): (h: Handled<E>)
    ensures h.store == match Key(req.headers, tokenHeader)
                       case None => s
                       case Some(key) => Count(limiter, s, key, now, reachable).store
    ensures h.innerCalls <= 1
    ensures h.reply.Err? ==>
              h.innerCalls == 1 && h.reply == Forward(proxyTo, req, send)
  {
    Call(tokenHeader, limiter, s, now, reachable, req, r => Forward(proxyTo, r, send))
  }

  /**
   * Whatever the limiter decides, no header map the service hands to the
   * server in an `Ok` reply carries a hop-by-hop header: refusals carry
   * only the rate-limit headers, and forwarded responses are stripped by the
   * handler before the middleware adds its own.
   */
  lemma {:induction false} NoHopByHopHeaderReachesClient<E>(
    tokenHeader: Name, limiter: Limiter, s: Store, now: nat, reachable: bool,
    proxyTo: Url, req: Request, send: ClientRequest -> Result<ClientResponse, E>)
    ensures var h := Serve(tokenHeader, limiter, s, now, reachable, proxyTo, req, send);
            h.reply.Ok? ==>
              forall i :: 0 <= i < |h.reply.value.headers| ==> !IsHopByHop(h.reply.value.headers[i].name)
  {
    var inner := (r: Request) => Forward(proxyTo, r, send);
    var h := Call(tokenHeader, limiter, s, now, reachable, req, inner);
    if h.reply.Ok? {
      var hs := h.reply.value.headers;
      forall i | 0 <= i < |hs| ensures !IsHopByHop(hs[i].name) {
        var m := hs[i].name;
        if IsHopByHop(m) {
          if IsRateLimitName(m) {
            RateLimitNamesAreEndToEnd(m);
          }
          assert ValuesOf(hs, m) == [] by {
            var key := Key(req.headers, tokenHeader);
            if key.Some? {
              var c := Count(limiter, s, key.value, now, reachable);
              if c.result.Ok? || !c.result.error.LimitExceeded? {
                assert inner(req).Ok?;
              }
            }
          }
          AbsentHasNoValues(hs, m);
          assert false;
        }
      }
    }
  }

  /**
   * A request without the key header is refused before anything is counted:
   * the store is untouched and the backend is never called, whatever the
   * store held.
   */
  lemma KeylessRequestLeavesNoTrace<E>(
    tokenHeader: Name, limiter: Limiter, s: Store, now: nat, reachable: bool,
    proxyTo: Url, req: Request, send: ClientRequest -> Result<ClientResponse, E>)
    requires ValuesOf(req.headers, tokenHeader) == []
    ensures var h := Serve(tokenHeader, limiter, s, now, reachable, proxyTo, req, send);
            h.store == s && h.innerCalls == 0 && h.reply == Ok(Response(Forbidden, []))
  {
  }

  /**
   * With Redis out of reach a keyed request fails open: the backend's reply
   * comes back as the handler produced it, without rate-limit headers added.
   */
  lemma FailsOpenWithoutRedis<E>(
    tokenHeader: Name, limiter: Limiter, s: Store, now: nat,
    proxyTo: Url, req: Request, send: ClientRequest -> Result<ClientResponse, E>)
    requires Key(req.headers, tokenHeader).Some?
    ensures var h := Serve(tokenHeader, limiter, s, now, false, proxyTo, req, send);
            h.store == s && h.innerCalls == 1 && h.reply == Forward(proxyTo, req, send)
  {
  }

  /**
   * A key whose window already holds `limit` requests is refused: 403, the
   * backend is not called, and the client reads remaining 0 and the window's
   * end from the headers.
   */
  lemma DeniedOnceLimitReached<E>(
    tokenHeader: Name, limiter: Limiter, s: Store, now: nat,
    proxyTo: Url, req: Request, send: ClientRequest -> Result<ClientResponse, E>)
    requires ExpiresAccepted(limiter)
    requires Key(req.headers, tokenHeader).Some?
    requires Live(s, Key(req.headers, tokenHeader).value, now)
    requires s[Key(req.headers, tokenHeader).value].count >= limiter.limit
    requires s[Key(req.headers, tokenHeader).value].expiry <= MaxChronoSecs
    ensures var h := Serve(tokenHeader, limiter, s, now, true, proxyTo, req, send);
            && h.innerCalls == 0
            && h.reply.Ok? && h.reply.value.status == Forbidden
            && DecimalValue(ValuesOf(h.reply.value.headers, HeaderLimit)[0]) == limiter.limit
            && DecimalValue(ValuesOf(h.reply.value.headers, HeaderRemaining)[0]) == 0
            && DecimalValue(ValuesOf(h.reply.value.headers, HeaderReset)[0])
                 == s[Key(req.headers, tokenHeader).value].expiry
  {
    var key := Key(req.headers, tokenHeader).value;
    var t := Track(limiter, s, key, now, true);
    assert t.result.Ok?;
    var c := Count(limiter, s, key, now, true);
    assert c.result == Err(LimitExceeded(Status(limiter.limit, 0, s[key].expiry)));
    var h := Serve(tokenHeader, limiter, s, now, true, proxyTo, req, send);
    ClientReadsStatus(h.reply.value.headers, c.result.error.status);
  }
}

=== FILE: rate_limiter.dfy ===
/**
 * The enforcement middleware of
 * `limitation-actix-middleware/src/rate_limiter.rs`: take the rate-limit key
 * from a configured request header, count it, and either pass the request to
 * the inner service, answer 403, or fail open.
 *
 * The wrapped service is the function `inner`; its error type `E` is opaque.
 * `innerCalls` records how often a call handed the request on.
 */
module RateLimiter {
  import opened Wrappers
  import opened Headers
  import opened Http
  import opened Limitation

  const HeaderLimit: Name := "x-ratelimit-limit"
  const HeaderRemaining: Name := "x-ratelimit-remaining"
  const HeaderReset: Name := "x-ratelimit-reset"

  /** One of the three rate-limit header names. */
  predicate IsRateLimitName(m: Name) {
    SameName(m, HeaderLimit) || SameName(m, HeaderRemaining) || SameName(m, HeaderReset)
  }

  /** The three rate-limit headers each hold exactly the decimal rendering of the status field. */
  predicate CarriesStatus(h: HeaderMap, status: Status) {
    && ValuesOf(h, HeaderLimit) == [Decimal(status.limit)]
    && ValuesOf(h, HeaderRemaining) == [Decimal(status.remaining)]
    && ValuesOf(h, HeaderReset) == [Decimal(status.resetEpochUtc)]
  }

  /** The three names are different headers. */
  lemma RateLimitNamesDistinct()
    ensures !SameName(HeaderLimit, HeaderRemaining)
    ensures !SameName(HeaderLimit, HeaderReset)
    ensures !SameName(HeaderRemaining, HeaderReset)
  {
    assert |Lower(HeaderLimit)| != |Lower(HeaderRemaining)|;
    assert |Lower(HeaderReset)| != |Lower(HeaderRemaining)|;
    assert Lower(HeaderLimit)[12] != Lower(HeaderReset)[12];
  }

  /** A client reading the three headers recovers the status they were set from. */
  lemma ClientReadsStatus(h: HeaderMap, status: Status)
    requires CarriesStatus(h, status)
    ensures DecimalValue(ValuesOf(h, HeaderLimit)[0]) == status.limit
    ensures DecimalValue(ValuesOf(h, HeaderRemaining)[0]) == status.remaining
    ensures DecimalValue(ValuesOf(h, HeaderReset)[0]) == status.resetEpochUtc
  {
    DecimalRoundTrip(status.limit);
    DecimalRoundTrip(status.remaining);
    DecimalRoundTrip(status.resetEpochUtc);
  }

  /**
   * `key`: the first value of the configured header, taken verbatim as text.
   * There is no key when the header is missing or its value is not visible
   * ASCII.
   */
  function Key(headers: HeaderMap, tokenHeader: Name): (k: Option<string>)
    ensures k.Some? <==> ValuesOf(headers, tokenHeader) != []
                         && VisibleAscii(ValuesOf(headers, tokenHeader)[0])
    ensures k.Some? ==> |k.value| == |ValuesOf(headers, tokenHeader)[0]|
                        && forall i :: 0 <= i < |k.value| ==>
                             k.value[i] as int == ValuesOf(headers, tokenHeader)[0][i] as int
  {
    match Get(headers, tokenHeader)
    case None => None
    case Some(v) => if VisibleAscii(v) then Some(AsText(v)) else None
  }

  /**
   * `add_rate_limit_headers`: sets the three headers from `status`, each to a
   * single value, and leaves every other header alone.
   */
  function AddRateLimitHeaders(h: HeaderMap, status: Status): (r: HeaderMap)
    ensures CarriesStatus(r, status)
    ensures forall m :: !IsRateLimitName(m) ==> ValuesOf(r, m) == ValuesOf(h, m)
  {
    RateLimitNamesDistinct();
    var withLimit := Insert(h, HeaderLimit, Decimal(status.limit));
    var withRemaining := Insert(withLimit, HeaderRemaining, Decimal(status.remaining));
    Insert(withRemaining, HeaderReset, Decimal(status.resetEpochUtc))
  }

  /** The outcome of one middleware call and the counter store after it. */
  datatype Handled<E> = Handled(store: Store, reply: Result<Response, E>, innerCalls: nat)

  /**
   * `RateLimiterMiddleware::call`. A request without a usable key is refused
   * with a bare 403 and never counted. Otherwise the key is counted: an
   * admitted request goes to `inner` and its response gains the rate-limit
   * headers; a denied one gets a 403 carrying them; any other limiter error
   * hands the request to `inner` untouched.
   */
  function Call<E>(tokenHeader: Name, limiter: Limiter, s: Store, now: nat, reachable: bool,
                   req: Request, inner: Request -> Result<Response, E>): (h: Handled<E>)
    ensures Key(req.headers, tokenHeader).None? ==>
              h.store == s && h.innerCalls == 0 && h.reply == Ok(Response(Forbidden, []))
    ensures Key(req.headers, tokenHeader).Some? ==>
              var c := Count(limiter, s, Key(req.headers, tokenHeader).value, now, reachable);
              && h.store == c.store
              && (c.result.Ok? ==>
                    && h.innerCalls == 1
                    && (inner(req).Err? ==> h.reply == inner(req))
                    && (inner(req).Ok? ==>
                          && h.reply.Ok?
                          && h.reply.value.status == inner(req).value.status
                          && CarriesStatus(h.reply.value.headers, c.result.value)
                          && forall m :: !IsRateLimitName(m) ==>
                               ValuesOf(h.reply.value.headers, m) == ValuesOf(inner(req).value.headers, m)))
              && (c.result.Err? && c.result.error.LimitExceeded? ==>
                    && h.innerCalls == 0
                    && h.reply.Ok?
                    && h.reply.value.status == Forbidden
                    && CarriesStatus(h.reply.value.headers, c.result.error.status)
                    && forall m :: !IsRateLimitName(m) ==> ValuesOf(h.reply.value.headers, m) == [])
              && (c.result.Err? && !c.result.error.LimitExceeded? ==>
                    h.innerCalls == 1 && h.reply == inner(req))
  {
    match Key(req.headers, tokenHeader)
    case None => Handled(s, Ok(Response(Forbidden, [])), 0)
    case Some(key) =>
      var c := Count(limiter, s, key, now, reachable);
      match c.result
      case Ok(status) =>
        var reply := match inner(req)
                     case Ok(res) => Ok(Response(res.status, AddRateLimitHeaders(res.headers, status)))
                     case Err(e) => Err(e);
        Handled(c.store, reply, 1)
      case Err(LimitExceeded(status)) =>
        Handled(c.store, Ok(Response(Forbidden, AddRateLimitHeaders([], status))), 0)
      case Err(_) => Handled(c.store, inner(req), 1)
  }
}

=== FILE: window.dfy ===
/**
 * What a sequence of `count` calls on one key sees: the counts within one
 * window, the inclusive limit, the fixed expiry and the reset once the window
 * is over. Every call in a sequence reaches Redis.
 */
module Window {
  import opened Wrappers
  import opened Limitation

  /** The statuses a sequence of calls returned and the store they leave behind. */
  datatype Run = Run(store: Store, results: seq<Result<Status, Error>>)

  /** Counts one request on `key` at each of `times`, in order. */
  function CountAll(l: Limiter, s: Store, key: string, times: seq<nat>): (r: Run)
    ensures |r.results| == |times|
    decreases |times|
  {
    if |times| == 0 then Run(s, [])
    else
      var first := Count(l, s, key, times[0], true);
      var rest := CountAll(l, first.store, key, times[1..]);
      Run(rest.store, [first.result] + rest.results)
  }

  /** Unfolds `CountAll` once: the first call's result, then the rest's. */
  lemma CountAllFirst(l: Limiter, s: Store, key: string, times: seq<nat>, first: Counted)
    requires |times| > 0 && first == Count(l, s, key, times[0], true)
    ensures var rest := CountAll(l, first.store, key, times[1..]);
            && CountAll(l, s, key, times).store == rest.store
            && CountAll(l, s, key, times).results[0] == first.result
            && forall i :: 0 < i < |times| ==> CountAll(l, s, key, times).results[i] == rest.results[i - 1]
  {
  }

  /** One call on a live record adds one to its count and keeps its expiry. */
  lemma LiveStep(l: Limiter, s: Store, key: string, now: nat)
    requires ExpiresAccepted(l)
    requires Live(s, key, now) && s[key].expiry <= MaxChronoSecs
    ensures Count(l, s, key, now, true)
              == Counted(s[key := Record(s[key].count + 1, s[key].expiry)],
                         Decide(s[key].count + 1, l.limit, s[key].expiry))
  {
  }

  /** One call without a live record opens a window of one period holding count 1. */
  lemma FreshStep(l: Limiter, s: Store, key: string, now: nat)
    requires ExpiresAccepted(l)
    requires !Live(s, key, now) && now + l.period.secs <= MaxChronoSecs
    ensures Count(l, s, key, now, true)
              == Counted(s[key := Record(1, now + l.period.secs)],
                         Decide(1, l.limit, now + l.period.secs))
  {
  }

  /** No call in `times` comes at or after `expiry`. */
  predicate Before(times: seq<nat>, expiry: nat) {
    forall i :: 0 <= i < |times| ==> times[i] < expiry
  }

  lemma BeforeTail(times: seq<nat>, expiry: nat)
    requires |times| > 0 && Before(times, expiry)
    ensures Before(times[1..], expiry)
  {
  }

  /**
   * Calls made while a record is live leave it with one more count per call
   * and the same expiry; no other key changes.
   */
  lemma {:induction false} WindowStore(l: Limiter, s: Store, key: string, times: seq<nat>)
    requires ExpiresAccepted(l)
    requires key in s && s[key].expiry <= MaxChronoSecs
    requires Before(times, s[key].expiry)
    ensures CountAll(l, s, key, times).store
              == s[key := Record(s[key].count + |times|, s[key].expiry)]
    decreases |times|
  {
    if |times| > 0 {
      LiveStep(l, s, key, times[0]);
      var next := s[key := Record(s[key].count + 1, s[key].expiry)];
      CountAllFirst(l, s, key, times, Counted(next, Decide(s[key].count + 1, l.limit, s[key].expiry)));
      BeforeTail(times, s[key].expiry);
      WindowStore(l, next, key, times[1..]);
      assert next[key := Record(next[key].count + |times[1..]|, s[key].expiry)]
          == s[key := Record(s[key].count + |times|, s[key].expiry)];
    }
  }

  /**
   * Calls made while a record is live all land in its window: the i-th call
   * sees the record's count plus i + 1 and the record's expiry.
   */
  lemma {:induction false} CountsWithinWindow(l: Limiter, s: Store, key: string, times: seq<nat>)
    requires ExpiresAccepted(l)
    requires key in s && s[key].expiry <= MaxChronoSecs
    requires Before(times, s[key].expiry)
    ensures forall i :: 0 <= i < |times| ==>
              CountAll(l, s, key, times).results[i]
                == Decide(s[key].count + i + 1, l.limit, s[key].expiry)
    decreases |times|
  {
    if |times| > 0 {
      LiveStep(l, s, key, times[0]);
      var next := s[key := Record(s[key].count + 1, s[key].expiry)];
      CountAllFirst(l, s, key, times, Counted(next, Decide(s[key].count + 1, l.limit, s[key].expiry)));
      BeforeTail(times, s[key].expiry);
      CountsWithinWindow(l, next, key, times[1..]);
    }
  }

  /** A fresh window leaves a record counting every call, expiring one period after the first. */
  lemma FreshWindowStore(l: Limiter, s: Store, key: string, times: seq<nat>)
    requires ExpiresAccepted(l)
    requires |times| > 0 && !Live(s, key, times[0])
    requires times[0] + l.period.secs <= MaxChronoSecs
    requires Before(times, times[0] + l.period.secs)
    ensures CountAll(l, s, key, times).store == s[key := Record(|times|, times[0] + l.period.secs)]
  {
    var end := times[0] + l.period.secs;
    FreshStep(l, s, key, times[0]);
    var next := s[key := Record(1, end)];
    CountAllFirst(l, s, key, times, Counted(next, Decide(1, l.limit, end)));
    BeforeTail(times, end);
    WindowStore(l, next, key, times[1..]);
    assert next[key := Record(1 + |times[1..]|, end)] == s[key := Record(|times|, end)];
  }

  /** Within a fresh window, the i-th call sees count i + 1 and the window's end. */
  lemma FreshWindowCounts(l: Limiter, s: Store, key: string, times: seq<nat>)
    requires ExpiresAccepted(l)
    requires |times| > 0 && !Live(s, key, times[0])
    requires times[0] + l.period.secs <= MaxChronoSecs
    requires Before(times, times[0] + l.period.secs)
    ensures forall i :: 0 <= i < |times| ==>
              CountAll(l, s, key, times).results[i] == Decide(i + 1, l.limit, times[0] + l.period.secs)
  {
    var end := times[0] + l.period.secs;
    FreshStep(l, s, key, times[0]);
    var next := s[key := Record(1, end)];
    CountAllFirst(l, s, key, times, Counted(next, Decide(1, l.limit, end)));
    BeforeTail(times, end);
    CountsWithinWindow(l, next, key, times[1..]);
  }

  /**
   * A fresh window of limit L: calls 1 to L are admitted with remaining
   * L-1, ..., 0, every later call in the window is denied with remaining 0,
   * and every status names the window's end as its reset time.
   */
  lemma FreshWindow(l: Limiter, s: Store, key: string, times: seq<nat>)
    requires ExpiresAccepted(l)
    requires |times| > 0 && !Live(s, key, times[0])
    requires times[0] + l.period.secs <= MaxChronoSecs
    requires forall i :: 0 <= i < |times| ==> times[0] <= times[i] < times[0] + l.period.secs
    ensures var end := times[0] + l.period.secs;
            var r := CountAll(l, s, key, times);
            && r.store == s[key := Record(|times|, end)]
            && (forall i :: 0 <= i < |times| && i < l.limit ==>
                  r.results[i] == Ok(Status(l.limit, l.limit - i - 1, end)))
            && (forall i :: 0 <= i < |times| && i >= l.limit ==>
                  r.results[i] == Err(LimitExceeded(Status(l.limit, 0, end))))
  {
    FreshWindowStore(l, s, key, times);
    FreshWindowCounts(l, s, key, times);
  }

  /**
   * Once the window is over, the next call starts a new one: its count is 1,
   * its expiry is a full period away, and it is admitted with remaining
   * limit - 1 whenever the limit is at least 1.
   */
  lemma WindowResets(l: Limiter, s: Store, key: string, now: nat)
    requires ExpiresAccepted(l) && now + l.period.secs <= MaxChronoSecs
    requires key in s && s[key].expiry <= now
    ensures var c := Count(l, s, key, now, true);
            && c.store[key] == Record(1, now + l.period.secs)
            && (1 <= l.limit ==> c.result == Ok(Status(l.limit, l.limit - 1, now + l.period.secs)))
            && (l.limit == 0 ==> c.result.Err? && c.result.error.LimitExceeded?)
  {
  }

  /** A whole window, then the first call after it: the counter starts again from 1. */
  lemma WindowRollsOver(l: Limiter, s: Store, key: string, times: seq<nat>, later: nat)
    requires ExpiresAccepted(l) && 1 <= l.limit
    requires |times| > 0 && !Live(s, key, times[0])
    requires later + l.period.secs <= MaxChronoSecs
    requires forall i :: 0 <= i < |times| ==> times[0] <= times[i] < times[0] + l.period.secs
    requires times[0] + l.period.secs <= later
    ensures Count(l, CountAll(l, s, key, times).store, key, later, true).result
              == Ok(Status(l.limit, l.limit - 1, later + l.period.secs))
  {
    FreshWindow(l, s, key, times);
    WindowResets(l, CountAll(l, s, key, times).store, key, later);
  }

  /**
   * The example deployment: limit 5 per 10 seconds, six calls on "tok1" from
   * an empty store within one window. Calls 1 to 5 are admitted with
   * remaining 4, 3, 2, 1, 0; call 6 is denied with remaining 0.
   */
  lemma FiveInTenSeconds(start: nat, times: seq<nat>)
    requires start + 10 <= MaxChronoSecs
    requires times == [start, start + 1, start + 2, start + 3, start + 4, start + 5]
    ensures var l := WithPeriod(WithLimit(Build("redis://127.0.0.1/"), 5), FromSecs(10));
            var r := CountAll(Finish(l, _ => true).value, map[], "tok1", times).results;
            && r[0] == Ok(Status(5, 4, start + 10))
            && r[1] == Ok(Status(5, 3, start + 10))
            && r[2] == Ok(Status(5, 2, start + 10))
            && r[3] == Ok(Status(5, 1, start + 10))
            && r[4] == Ok(Status(5, 0, start + 10))
            && r[5] == Err(LimitExceeded(Status(5, 0, start + 10)))
  {
    FreshWindow(Limiter(5, FromSecs(10)), map[], "tok1", times);
  }
}

=== FILE: wrappers.dfy ===
/** The failure-carrying shapes the Rust code expresses with `Option` and `Result`. */
module Wrappers {

  datatype Option<+T> = None | Some(value: T)

  datatype Result<+T, +E> = Ok(value: T) | Err(error: E)
}
